=== FILE: README.md ===
# Airport lookup by ICAO code — a Dafny model

This project models the core of a Spring Boot service that answers
`GET /api/v1/airports/{icaoCode}`. The core has four parts:

- **Airport service.** It trims and upper-cases the requested code and checks
  it against `^[A-Z]{4}$`. It then asks a data client for the airport.
- **Three endpoint strategies.** The primary, secondary and tertiary strategies
  each build a provider URL, fetch a payload, validate it and map it to the
  common airport record. Every failure goes through a shared `handleException`.
  - The primary payload is a JSON array. The city comes from its `getCity`
    rule: the trimmed text before the first `/` of the airport name.
  - The tertiary provider gives elevations in metres. They are converted to
    feet with `(int) Math.round(e * 3.28084)`.
- **The data client.** It calls the primary provider with its own chain of
  catch clauses.
- **The global exception handler.** It maps each exception to an HTTP status
  and an error body.

Everything is modelled as pure functions over immutable datatypes:

- The HTTP call is a function parameter `fetch: string -> Fetch<T>`. It
  yields either the decoded payload or a transport failure (client error with
  status, server error, connection failure, anything else).
- A Java exception inside a `try` block is `Raised`. That is either a
  transport failure (`Runtime`) or a domain exception the code threw
  itself (`Thrown`).
- Java `null` is `Option.None`.
- Strings are `seq<char>`. `String.trim` (drop characters `<= ' '` at both
  ends) and `String.split("/")` (a limit of 0 drops trailing empty pieces) are
  modelled in module `Text`.
- A `(int)` cast of a `long` is written out as two's-complement narrowing.

Modules, one per source unit:

- `Text`: Java string operations.
- `Exceptions`: domain exceptions and their messages.
- `Airport`: the response DTO.
- `ProviderRecords`: provider DTOs and `getCity`.
- `AirportService`.
- `EndpointStrategy`: the shared strategy template and `handleException`.
- `PrimaryStrategy`, `SecondaryStrategy`, `TertiaryStrategy`.
- `AviationApiClient`: the data client.
- `GlobalExceptionHandler`.
- `RequestFlow`: the whole request, end to end.

One point about the code itself:

- **Missing return.** Each strategy's `catch (Exception ex)` block calls the
  `void` method `handleException` and has no `return` after it. As written,
  Java rejects that method for a missing return. `handleException` always
  throws, so the model treats the catch block as "throw what
  `handleException` throws". That is evidently the intent.
- **Rethrow in handleException.** The branch for an exception that is already
  classified (`AbstractAviationEndpointStrategy.java:78-79`) runs `throw ex;`.
  Here `ex` is a method parameter of static type `Exception`, not a catch
  parameter, so Java's precise rethrow does not apply. The `void` method
  declares no `throws` clause, so that line does not compile as written
  either. The model rethrows the domain exception unchanged, which is
  evidently the intent.

## Model

| member | source | states |
|---|---|---|
| AirportService.MatchesIcaoPattern | src/main/java/com/sporty/behometask/service/AirportService.java:55 | a string the pattern matches has length four and starts with a capital letter |
| AirportService.PatternIsIcaoCode | src/main/java/com/sporty/behometask/service/AirportService.java:22 | the pattern `^[A-Z]{4}$` matches a string exactly when it is four ASCII capital letters |
| AirportService.Normalize | src/main/java/com/sporty/behometask/service/AirportService.java:39 | null becomes ""; otherwise the code handed on is the request with only characters `<= ' '` dropped from its two ends, upper-cased; it has no such character at either end and no ASCII lower-case letter |
| AirportService.NormalizeIdempotent | src/main/java/com/sporty/behometask/service/AirportService.java:39 | the normalised code has no surrounding blanks, and normalising it again changes nothing |
| AirportService.AcceptedCodeIsNormal | src/main/java/com/sporty/behometask/service/AirportService.java:39 | a valid four-letter code is its own normal form |
| AirportService.UpperOfIcaoCode | src/main/java/com/sporty/behometask/service/AirportService.java:39 | upper-casing leaves a valid code unchanged |
| AirportService.PaddedCodeIsNormal | src/main/java/com/sporty/behometask/service/AirportService.java:39 | blanks around a valid code are dropped, and the code itself is its normal form |
| AirportService.BlankNormalizesToEmpty | src/main/java/com/sporty/behometask/service/AirportService.java:39 | null and blank-only inputs normalise to the empty string |
| AirportService.ValidateIcaoCode | src/main/java/com/sporty/behometask/service/AirportService.java:50-58 | a code passes exactly when it is four capital letters; the empty code gets the empty-code message; any other rejected code gets the format message that quotes it |
| AirportService.GetAirportByIcaoCode | src/main/java/com/sporty/behometask/service/AirportService.java:37-42 | the client is called once with the normalised code exactly when that code is valid, and its answer is returned unchanged; otherwise the client is not called and the validation error is raised |
| AirportService.RejectedIgnoresClient | src/main/java/com/sporty/behometask/service/AirportService.java:40-41 | a rejected request has the same outcome whatever data client is plugged in |
| AirportService.SameNormalFormSameAnswer | src/main/java/com/sporty/behometask/service/AirportService.java:39-41 | requests differing only in case and surrounding blanks are served identically |
| AirportService.AcceptedExamples | src/test/java/com/sporty/behometask/service/AirportServiceTest.java:34-81 | "KJFK", "kjfk" and "  KJFK  " all reach the client as "KJFK" |
| AirportService.EmptyExamples | src/test/java/com/sporty/behometask/service/AirportServiceTest.java:83-103 | null and "" are rejected with "ICAO code cannot be empty" |
| AirportService.RejectedAsTyped | src/main/java/com/sporty/behometask/service/AirportService.java:55-56 | a non-empty, trimmed, upper-case code that is not four letters is rejected with the format message quoting it, and the client is never called |
| AirportService.MalformedExample | src/test/java/com/sporty/behometask/service/AirportServiceTest.java:105-147 | "ABC", "ABCDE", "K1FK" and "K@FK" are rejected with the format message, and the client is never called |
| Exceptions.NotFoundMessage | src/main/java/com/sporty/behometask/exception/AirportNotFoundException.java:8 | the not-found message is "Airport with ICAO code '", the code, then "' not found" |
| Exceptions.NotFoundMessageInjective | src/main/java/com/sporty/behometask/exception/AirportNotFoundException.java:8 | distinct codes give distinct not-found messages |
| Exceptions.FormatMessage | src/main/java/com/sporty/behometask/service/AirportService.java:56 | the format message is "Invalid ICAO code format: '", the code, then "'. ICAO codes must be exactly 4 uppercase letters." |
| Exceptions.FormatMessageInjective | src/main/java/com/sporty/behometask/service/AirportService.java:56 | distinct codes give distinct format messages |
| Exceptions.FormatMessageIsNotEmptyMessage | src/main/java/com/sporty/behometask/service/AirportService.java:51-56 | no format message equals the empty-code message, so the two rejections are told apart by their text |
| Exceptions.Message | src/main/java/com/sporty/behometask/exception/AirportNotFoundException.java:8 | a not-found exception's message is the not-found text for its code; the other two exceptions carry the message they were built with |
| Text.Trim | src/main/java/com/sporty/behometask/service/AirportService.java:39 | neither end of the trimmed string is a character `<= ' '` |
| Text.TrimDropsOnlyEnds | src/main/java/com/sporty/behometask/service/AirportService.java:39 | trim keeps one contiguous stretch of the input and drops only characters `<= ' '` before and after it |
| Text.ToUpperAscii | src/main/java/com/sporty/behometask/service/AirportService.java:39 | upper-casing keeps the length and maps each character on its own: 'a'..'z' to 'A'..'Z', everything else unchanged |
| Text.TrimOfPadded | src/main/java/com/sporty/behometask/service/AirportService.java:39 | a trimmed core padded with characters `<= ' '` on both sides trims back to the core |
| Text.TrimEmptyIff | src/main/java/com/sporty/behometask/service/AirportService.java:39 | trim yields the empty string exactly when every character is `<= ' '` |
| Text.JoinPieces | src/main/java/com/sporty/behometask/client/dto/AviationApiAirportResponse.java:40 | the pieces between separators joined back with the separator give the original string |
| Text.PiecesAllEmptyIff | src/main/java/com/sporty/behometask/client/dto/AviationApiAirportResponse.java:40 | every piece is empty exactly when the string consists of separators only |
| Text.JavaSplit | src/main/java/com/sporty/behometask/client/dto/AviationApiAirportResponse.java:40 | without the separator, split returns the whole string as its one element; with it, split returns the pieces between separators minus exactly the trailing run of empty pieces: what it keeps ends in a non-empty piece, and everything it drops is empty |
| Text.SplitFirstElement | src/main/java/com/sporty/behometask/client/dto/AviationApiAirportResponse.java:40 | for a string containing the separator, Java's split gives an empty array when the string is separators only, and otherwise its first element is the text before the first separator |
| ProviderRecords.GetCity | src/main/java/com/sporty/behometask/client/dto/AviationApiAirportResponse.java:38-43 | a null name gives a null city; a name without "/" is the city unchanged; otherwise the city is the trimmed text before the first "/", and a name made only of slashes raises an index error; a derived city never contains "/" |
| ProviderRecords.CityOfLeadingSlash | src/main/java/com/sporty/behometask/client/dto/AviationApiAirportResponse.java:40 | a name that begins with "/" and is not all slashes yields the empty city |
| ProviderRecords.CityIdempotent | src/main/java/com/sporty/behometask/client/dto/AviationApiAirportResponse.java:38-43 | feeding the derived city back in as the name gives the same city |
| ProviderRecords.CityIgnoresState | src/main/java/com/sporty/behometask/client/dto/AviationApiAirportResponse.java:23-24 | the state field plays no part in the city |
| EndpointStrategy.HandleException | src/main/java/com/sporty/behometask/client/strategy/AbstractAviationEndpointStrategy.java:68-84 | a 404 becomes not-found for the requested code; another client error becomes an API error naming its status; a connection failure becomes "Failed to connect"; domain exceptions pass unchanged; anything else becomes "Unexpected error"; the result is not-found exactly when the cause signals it |
| EndpointStrategy.HandleExceptionIdempotent | src/main/java/com/sporty/behometask/client/strategy/AbstractAviationEndpointStrategy.java:78-80 | classifying an already classified exception again changes nothing |
| EndpointStrategy.Run | src/main/java/com/sporty/behometask/client/strategy/PrimaryAviationEndpointStrategy.java:45-61 | the strategy succeeds exactly when the fetch, validation and mapping all succeed, and returns the mapped record; a transport failure or validation error is classified by handleException |
| EndpointStrategy.RunHttpNotFound | src/main/java/com/sporty/behometask/client/strategy/AbstractAviationEndpointStrategy.java:69-72 | an HTTP 404 from the provider is reported as not-found for the requested code |
| PrimaryStrategy.BuildUrl | src/main/java/com/sporty/behometask/client/strategy/PrimaryAviationEndpointStrategy.java:34-36 | the URL is the base, "/airport?ids=", the code and "&format=json", in that order |
| PrimaryStrategy.BuildUrlInjective | src/main/java/com/sporty/behometask/client/strategy/PrimaryAviationEndpointStrategy.java:34-36 | distinct codes give distinct URLs |
| PrimaryStrategy.ValidateResponse | src/main/java/com/sporty/behometask/client/strategy/PrimaryAviationEndpointStrategy.java:69-74 | a null or empty array is a not-found for the requested code, and nothing else is |
| PrimaryStrategy.MapRecord | src/main/java/com/sporty/behometask/client/strategy/PrimaryAviationEndpointStrategy.java:77-95 | the mapping succeeds exactly when getCity does; the record then carries a location and "UTC", its city is getCity of the name, and every other provider field except the state reads back unchanged from it |
| PrimaryStrategy.MapRecordKeepsFields | src/main/java/com/sporty/behometask/client/strategy/PrimaryAviationEndpointStrategy.java:80-94 | when the city can be derived, every provider field except the state can be read back from the mapped record |
| PrimaryStrategy.MapResponse | src/main/java/com/sporty/behometask/client/strategy/PrimaryAviationEndpointStrategy.java:77-78 | only element 0 of the array is mapped; a null array, an empty array, a null element or an unmappable name fails as a dereference, the unexpected runtime failure and never a client or server error |
| PrimaryStrategy.MappingIgnoresRequestedCode | src/main/java/com/sporty/behometask/client/strategy/PrimaryAviationEndpointStrategy.java:77-86 | the mapped record does not depend on the requested code: the provider's own code is returned |
| PrimaryStrategy.GetAirport | src/main/java/com/sporty/behometask/client/strategy/PrimaryAviationEndpointStrategy.java:45-61 | failures are always not-found or API errors, and a success is a canonical record |
| PrimaryStrategy.NotFoundCases | src/main/java/com/sporty/behometask/client/strategy/PrimaryAviationEndpointStrategy.java:69-73 | a null array, an empty array and an HTTP 404 all give not-found for the requested code |
| PrimaryStrategy.FirstElementWins | src/main/java/com/sporty/behometask/client/strategy/PrimaryAviationEndpointStrategy.java:77-94 | when the array is non-empty, the answer is element 0 mapped, and the rest of the array is ignored |
| PrimaryStrategy.BrokenFirstElement | src/main/java/com/sporty/behometask/client/strategy/PrimaryAviationEndpointStrategy.java:58-60 | a null first element, or one whose name is all slashes, becomes the unexpected API error, not a not-found |
| SecondaryStrategy.BuildUrl | src/main/java/com/sporty/behometask/client/strategy/SecondaryAviationEndpointStrategy.java:33-36 | the URL is the base, "/api/airports/" and the code |
| SecondaryStrategy.ValidateResponse | src/main/java/com/sporty/behometask/client/strategy/SecondaryAviationEndpointStrategy.java:68-74 | a null object, or one without an ICAO code, is a not-found for the requested code, and nothing else is |
| SecondaryStrategy.MapRecord | src/main/java/com/sporty/behometask/client/strategy/SecondaryAviationEndpointStrategy.java:76-93 | the mapped record has a location and the UTC timezone |
| SecondaryStrategy.MapRecordLossless | src/main/java/com/sporty/behometask/client/strategy/SecondaryAviationEndpointStrategy.java:76-93 | every provider field can be read back from the mapped record |
| SecondaryStrategy.MapResponse | src/main/java/com/sporty/behometask/client/strategy/SecondaryAviationEndpointStrategy.java:76-93 | a present object maps to its record, and a null one fails as a dereference, the unexpected runtime failure |
| SecondaryStrategy.GetAirport | src/main/java/com/sporty/behometask/client/strategy/SecondaryAviationEndpointStrategy.java:45-61 | failures are always not-found or API errors, and a success is a canonical record |
| SecondaryStrategy.NotFoundCases | src/main/java/com/sporty/behometask/client/strategy/SecondaryAviationEndpointStrategy.java:68-74 | a null object, an object without an ICAO code and an HTTP 404 all give not-found for the requested code |
| SecondaryStrategy.FoundCase | src/main/java/com/sporty/behometask/client/strategy/SecondaryAviationEndpointStrategy.java:45-61 | an object with an ICAO code is returned mapped |
| TertiaryStrategy.BuildUrl | src/main/java/com/sporty/behometask/client/strategy/TertiaryAviationEndpointStrategy.java:33-36 | the URL is the base, "/v1/airport/" and the code |
| TertiaryStrategy.ValidateResponse | src/main/java/com/sporty/behometask/client/strategy/TertiaryAviationEndpointStrategy.java:68-74 | a null object, or one without an ICAO code, is a not-found for the requested code, and nothing else is |
| TertiaryStrategy.NarrowToInt | src/main/java/com/sporty/behometask/client/strategy/TertiaryAviationEndpointStrategy.java:85 | the int cast agrees with its argument modulo 2^32, and keeps it whole when it fits |
| TertiaryStrategy.MetresToFeet | src/main/java/com/sporty/behometask/client/strategy/TertiaryAviationEndpointStrategy.java:83-86 | when no wrap-around occurs, the feet value is the metres times 3.28084 rounded half up |
| TertiaryStrategy.RealisticElevationsFit | src/main/java/com/sporty/behometask/client/strategy/TertiaryAviationEndpointStrategy.java:85 | every elevation between -654552995 and 654552994 metres converts without wrap-around |
| TertiaryStrategy.MetresToFeetMonotone | src/main/java/com/sporty/behometask/client/strategy/TertiaryAviationEndpointStrategy.java:85 | a higher elevation never converts to fewer feet |
| TertiaryStrategy.HundredMetres | src/main/java/com/sporty/behometask/client/strategy/TertiaryAviationEndpointStrategy.java:85 | 100 metres is 328 feet |
| TertiaryStrategy.MapRecord | src/main/java/com/sporty/behometask/client/strategy/TertiaryAviationEndpointStrategy.java:76-98 | the record is canonical, and the elevation is present exactly when the provider's is, converted to feet |
| TertiaryStrategy.MapRecordKeepsFields | src/main/java/com/sporty/behometask/client/strategy/TertiaryAviationEndpointStrategy.java:88-97 | apart from the elevation, every provider field can be read back from the mapped record |
| TertiaryStrategy.MapResponse | src/main/java/com/sporty/behometask/client/strategy/TertiaryAviationEndpointStrategy.java:76-98 | a present object maps to its record, and a null one fails as a dereference, the unexpected runtime failure |
| TertiaryStrategy.GetAirport | src/main/java/com/sporty/behometask/client/strategy/TertiaryAviationEndpointStrategy.java:45-61 | failures are always not-found or API errors, and a success is a canonical record |
| TertiaryStrategy.NotFoundCases | src/main/java/com/sporty/behometask/client/strategy/TertiaryAviationEndpointStrategy.java:68-74 | a null object, an object without an ICAO code and an HTTP 404 all give not-found for the requested code |
| TertiaryStrategy.FoundCase | src/main/java/com/sporty/behometask/client/strategy/TertiaryAviationEndpointStrategy.java:45-61 | an object with an ICAO code is returned mapped, its elevation in feet |
| AviationApiClient.BuildUrl | src/main/java/com/sporty/behometask/client/impl/AviationApiClientImpl.java:41 | the client fetches the same URL as the primary strategy |
| AviationApiClient.CatchChain | src/main/java/com/sporty/behometask/client/impl/AviationApiClientImpl.java:54-65 | a 404 becomes not-found and nothing else does; every exception thrown inside the try becomes the unexpected API error |
| AviationApiClient.CatchChainAgreesOnFailures | src/main/java/com/sporty/behometask/client/impl/AviationApiClientImpl.java:54-65 | on transport failures the catch chain classifies exactly as the strategies' handleException |
| AviationApiClient.CatchChainSwallowsNotFound | src/main/java/com/sporty/behometask/client/impl/AviationApiClientImpl.java:63-65 | a not-found thrown inside the try is turned into the unexpected API error, whereas handleException keeps it |
| AviationApiClient.GetAirportAsWritten | src/main/java/com/sporty/behometask/client/impl/AviationApiClientImpl.java:37-67 | the client as written: failures are not-found or API errors, and a not-found names the requested code |
| AviationApiClient.EmptyArrayIsApiError | src/main/java/com/sporty/behometask/client/impl/AviationApiClientImpl.java:46-48 | as written, a null or empty array is answered with the unexpected API error |
| AviationApiClient.GetAirport | src/main/java/com/sporty/behometask/client/impl/AviationApiClientImpl.java:37-67 | corrected: a null or empty array is answered with not-found for the requested code |
| AviationApiClient.CorrectedMatchesPrimary | src/main/java/com/sporty/behometask/client/impl/AviationApiClientImpl.java:37-95 | the corrected client answers every request exactly as the primary strategy does |
| AviationApiClient.AsWrittenDiffersOnlyOnEmpty | src/main/java/com/sporty/behometask/client/impl/AviationApiClientImpl.java:50-53 | as written and corrected clients agree on every payload except a null or empty array |
| GlobalExceptionHandler.Handle | src/main/java/com/sporty/behometask/exception/GlobalExceptionHandler.java:24-91 | not-found is 404, invalid code is 400, API error and open circuit are 503, rate limit is 429, anything else is 500, each exactly; the body repeats the status, carries its reason phrase and the request path, and passes the 404 and 400 messages through; the API error, open circuit, rate limit and catch-all answers carry their own fixed messages, so the two kinds of 503 are told apart |
| GlobalExceptionHandler.ReasonPhrase | src/main/java/com/sporty/behometask/exception/GlobalExceptionHandler.java:24-91 | a reason phrase exists exactly for the five statuses the handlers use: 400, 404, 429, 500 and 503 |
| GlobalExceptionHandler.ApiErrorDetailHidden | src/main/java/com/sporty/behometask/exception/GlobalExceptionHandler.java:46-56 | every upstream API error gets the same response, whatever its detail |
| GlobalExceptionHandler.NotFoundResponseNamesCode | src/main/java/com/sporty/behometask/exception/GlobalExceptionHandler.java:24-33 | a not-found response names the missing code, and distinct codes give distinct responses |
| RequestFlow.RejectedRequestIs400 | src/main/java/com/sporty/behometask/exception/GlobalExceptionHandler.java:35-44 | a request the validation rejects is answered 400 with the validation message, and no provider is asked |
| RequestFlow.UnknownAirportIs404 | src/main/java/com/sporty/behometask/exception/GlobalExceptionHandler.java:24-33 | with the corrected client, a valid code for which the provider returns an empty array is answered 404 naming the code |
| RequestFlow.UnknownAirportIs503AsWritten | src/main/java/com/sporty/behometask/client/impl/AviationApiClientImpl.java:63-65 | as written, the same request is answered 503 |
| RequestFlow.AcceptedRequestStatuses | src/main/java/com/sporty/behometask/exception/GlobalExceptionHandler.java:24-56 | with the corrected client, a request that passes validation and fails is answered 404 or 503, never 400 or 500 |
| RequestFlow.AcceptedRequestStatusesAsWritten | src/main/java/com/sporty/behometask/client/impl/AviationApiClientImpl.java:37-67 | with the client as written, a request that passes validation and fails is likewise answered 404 or 503, never 400 or 500 |
| RequestFlow.StrategyOrder | src/main/java/com/sporty/behometask/client/strategy/EndpointStrategy.java:27-33 | the primary, secondary and tertiary strategies have priorities 1, 2 and 3, in strictly increasing order, and distinct names |

## Left out

- **Resilience.** No failover, retry, circuit-breaker, rate-limiter,
  time-limiter or bulkhead logic exists in the code beyond annotations, so
  none is modelled. Their behaviour lives in a framework whose code is not
  part of this model. Only the handler's answers to `CallNotPermittedException`
  and `RequestNotPermitted` are modelled.
- **Fallback methods.** The strategies' fallback methods are not modelled.
  Neither is the data client's own `getAirportFallback`
  (`AviationApiClientImpl.java:72-76`), which turns any exception into an
  `AviationApiException`. Its parameter is a plain `Exception`, so it matches
  every exception the client method throws, not only calls refused while the
  circuit is open. With the circuit-breaker annotation active, every client
  failure, a provider 404 included, would be answered 503 "currently
  unavailable". The `RequestFlow` statuses describe the client method without
  that annotation.
- **Failover.** Failover across strategies is not modelled, because no
  orchestrator exists in the code. `RequestFlow.StrategyOrder` states only the
  priorities.
- AirportService.GetAirportByIcaoCode: describes a cache miss only. The
  `@Cacheable` cache on the service method (`AirportService.java:36`) is not
  modelled. It is keyed by the raw, unnormalised input. On a cache hit the
  method body does not run, and the client is not called at all.
- **Transport and JSON.** HTTP transport and JSON decoding are the `fetch`
  parameter. A decoded payload is given, not parsed.
- **Logging, metrics and configuration.** These are not modelled. Neither is
  the circuit-breaker event listener or the `RestTemplate` set-up.
- **The controller.** It only forwards the path variable to the service, so
  it is not modelled.
- **Status text.** How Spring renders an HTTP status code as text inside
  "Aviation API returned error: …" is not modelled. That text is carried as
  `StatusCode.text`.
- **The error body.** The timestamp and the random trace id of the error body
  are left out, because they come from a clock and a random generator. The
  request path comes from `request.getRequestURI()` and is a parameter.
- **Coordinates.** Latitude and longitude are passed through unchanged as
  `real`, so floating-point representation is not modelled.
- **Integration tests.** The integration tests' HTTP stubs are not modelled.
- Text.ToUpperAscii: upper-cases ASCII letters only, where `String.toUpperCase`
  also maps non-ASCII letters (for example 'ı' to 'I'). Locale-dependent
  upper-casing is therefore not modelled.
- TertiaryStrategy.MetresToFeet: the conversion is computed as exact rational
  arithmetic. Tie artefacts of the `double` product (a product just below n + 0.5
  that rounds down) are not modelled.
- TertiaryStrategy.MetresToFeetMonotone: monotonicity is stated only where
  neither value wraps around. Past about 654 million metres the `(int)` cast
  wraps and the property fails.

## Findings

| source | as written | input that shows it | evidently intended | confidence | as-written member | corrected member |
|---|---|---|---|---|---|---|
| src/main/java/com/sporty/behometask/client/impl/AviationApiClientImpl.java:46-65 | The `AirportNotFoundException` thrown for a null or empty array, inside the `try`, is caught by the trailing `catch (Exception ex)`. It is rethrown as `AviationApiException("Unexpected error calling aviation API")`, so the handler answers 503. With the circuit breaker active, `getAirportFallback` (:72-76) would answer 503 here too, so the correction needs both | the provider answers `[]` for the valid code "ZZZZ" | rethrow the not-found, as the strategies' `handleException` does, so the request is answered 404 naming the code | high; not executed | AviationApiClient.GetAirportAsWritten, AviationApiClient.EmptyArrayIsApiError, RequestFlow.UnknownAirportIs503AsWritten | AviationApiClient.GetAirport, AviationApiClient.CorrectedMatchesPrimary, RequestFlow.UnknownAirportIs404 |

=== FILE: airport.dfy ===
/** The provider-agnostic airport record every provider is mapped onto (AirportResponse). */
module Airport {
  import opened Wrappers

  /** Java's int, the type behind every Integer elevation. */
  newtype int32 = x: int | -0x8000_0000 <= x < 0x8000_0000

  /** Latitude and longitude are decoded doubles that are only ever copied, so any exact value stands for them. */
  datatype LocationInfo = LocationInfo(latitude: Option<real>, longitude: Option<real>)

  datatype AirportResponse = AirportResponse(
    icaoCode: Option<string>,
    iataCode: Option<string>,
    name: Option<string>,
    city: Option<string>,
    country: Option<string>,
    location: Option<LocationInfo>,
    timezone: Option<string>,
    elevation: Option<int32>  // feet
  )

  /** Every provider reports the timezone as this fixed label. */
  const Utc := "UTC"

  /** The shape every mapped record has: a location object and the fixed timezone. */
  predicate IsCanonical(r: AirportResponse) {
    r.location.Some? && r.timezone == Some(Utc)
  }
}

=== FILE: exceptions.dfy ===
/**
 The three domain exceptions of the airport lookup and the messages they
 carry (AirportNotFoundException, AviationApiException,
 InvalidIcaoCodeException).
 */
module Exceptions {

  datatype AppError =
    | AirportNotFound(icaoCode: string)   // AirportNotFoundException(icaoCode)
    | AviationApi(message: string)        // AviationApiException(message, cause)
    | InvalidIcaoCode(message: string)    // InvalidIcaoCodeException(message)

  /** The only errors an endpoint strategy lets escape: not-found and API-unavailable. */
  predicate IsUpstreamError(e: AppError) {
    e.AirportNotFound? || e.AviationApi?
  }

  const NotFoundPrefix := "Airport with ICAO code '"
  const NotFoundSuffix := "' not found"

  /** The message AirportNotFoundException builds from the code it is given. */
  function NotFoundMessage(code: string): (m: string)
    ensures |m| == |NotFoundPrefix| + |code| + |NotFoundSuffix|
    ensures m[..|NotFoundPrefix|] == NotFoundPrefix
    ensures m[|NotFoundPrefix|..|NotFoundPrefix| + |code|] == code
    ensures m[|NotFoundPrefix| + |code|..] == NotFoundSuffix
  {
    NotFoundPrefix + code + NotFoundSuffix
  }

  /** Different codes give different not-found messages: the message names its code. */
  lemma NotFoundMessageInjective(a: string, b: string)
    requires NotFoundMessage(a) == NotFoundMessage(b)
    ensures a == b
  {
  }

  const EmptyCodeMessage := "ICAO code cannot be empty"
  const FormatPrefix := "Invalid ICAO code format: '"
  const FormatSuffix := "'. ICAO codes must be exactly 4 uppercase letters."

  /** The message of the format error, quoting the rejected (normalised) code. */
  function FormatMessage(code: string): (m: string)
    ensures |m| == |FormatPrefix| + |code| + |FormatSuffix|
    ensures m[..|FormatPrefix|] == FormatPrefix
    ensures m[|FormatPrefix|..|FormatPrefix| + |code|] == code
    ensures m[|FormatPrefix| + |code|..] == FormatSuffix
  {
    FormatPrefix + code + FormatSuffix
  }

  /** Different rejected codes give different format messages. */
  lemma FormatMessageInjective(a: string, b: string)
    requires FormatMessage(a) == FormatMessage(b)
    ensures a == b
  {
  }

  /** No format message is the empty-code message, so the two rejections are told apart by their text. */
  lemma FormatMessageIsNotEmptyMessage(code: string)
    ensures FormatMessage(code) != EmptyCodeMessage
  {
    assert |FormatMessage(code)| > |EmptyCodeMessage|;
  }

  const ConnectMessage := "Failed to connect to aviation API"
  const UnexpectedMessage := "Unexpected error calling aviation API"
  const ReturnedErrorPrefix := "Aviation API returned error: "

  /** Throwable.getMessage of each domain exception. */
  function Message(e: AppError): (m: string)
    ensures e.AirportNotFound? ==> m == NotFoundMessage(e.icaoCode)
    ensures !e.AirportNotFound? ==> m == e.message
  {
    match e
    case AirportNotFound(code) => NotFoundMessage(code)
    case AviationApi(m) => m
    case InvalidIcaoCode(m) => m
  }
}

=== FILE: flow.dfy ===
/**
 The request path end to end: the service validates the code, the data client
 queries the provider, and the exception handler turns a failure into an HTTP
 answer. Also the fixed order of the three endpoint strategies.
 */
module RequestFlow {
  import opened Wrappers
  import opened Exceptions
  import opened EndpointStrategy
  import opened AirportService
  import opened GlobalExceptionHandler
  import AviationApiClient
  import PrimaryStrategy
  import SecondaryStrategy
  import TertiaryStrategy

  /** The data client the service uses, given the provider's base URL and transport. */
  function Client(apiBaseUrl: string, fetch: string -> Fetch<PrimaryStrategy.Payload>): DataClient {
    code => AviationApiClient.GetAirport(apiBaseUrl, code, fetch)
  }

  /** The same client as written, with the empty-array quirk. */
  function ClientAsWritten(apiBaseUrl: string, fetch: string -> Fetch<PrimaryStrategy.Payload>): DataClient {
    code => AviationApiClient.GetAirportAsWritten(apiBaseUrl, code, fetch)
  }

  /** A request the validation rejects is answered 400 with the validation message, and no provider is asked. */
  lemma RejectedRequestIs400(input: Option<string>, client: DataClient, path: string)
    requires !IsIcaoCode(Normalize(input))
    ensures var call := GetAirportByIcaoCode(input, client);
            call.clientCalls == [] && call.outcome.Failure? &&
            Handle(Domain(call.outcome.error), path).status == 400 &&
            Handle(Domain(call.outcome.error), path).body.message ==
              (if Normalize(input) == "" then EmptyCodeMessage else FormatMessage(Normalize(input)))
  {
  }

  /** With the corrected client, a valid code the provider does not know is answered 404 naming the code. */
  lemma UnknownAirportIs404(input: Option<string>, apiBaseUrl: string, fetch: string -> Fetch<PrimaryStrategy.Payload>, path: string)
    requires IsIcaoCode(Normalize(input))
    requires fetch(PrimaryStrategy.BuildUrl(apiBaseUrl, Normalize(input))) == Payload(Some([]))
    ensures var call := GetAirportByIcaoCode(input, Client(apiBaseUrl, fetch));
            call.outcome == Failure(AirportNotFound(Normalize(input))) &&
            Handle(Domain(call.outcome.error), path).status == 404 &&
            Handle(Domain(call.outcome.error), path).body.message == NotFoundMessage(Normalize(input))
  {
  }

  /** As written, the same request is answered 503 Service Unavailable. */
  lemma UnknownAirportIs503AsWritten(input: Option<string>, apiBaseUrl: string, fetch: string -> Fetch<PrimaryStrategy.Payload>, path: string)
    requires IsIcaoCode(Normalize(input))
    requires fetch(PrimaryStrategy.BuildUrl(apiBaseUrl, Normalize(input))) == Payload(Some([]))
    ensures var call := GetAirportByIcaoCode(input, ClientAsWritten(apiBaseUrl, fetch));
            call.outcome.Failure? && Handle(Domain(call.outcome.error), path).status == 503
  {
    AviationApiClient.EmptyArrayIsApiError(apiBaseUrl, Normalize(input), fetch);
  }

  /** With the corrected client, whatever the provider does, an accepted request never produces a 400 or a 500. */
  lemma AcceptedRequestStatuses(input: Option<string>, apiBaseUrl: string, fetch: string -> Fetch<PrimaryStrategy.Payload>, path: string)
    requires IsIcaoCode(Normalize(input))
    ensures var call := GetAirportByIcaoCode(input, Client(apiBaseUrl, fetch));
            call.outcome.Failure? ==> Handle(Domain(call.outcome.error), path).status in {404, 503}
  {
  }

  /**
   The same holds with the client as written: an accepted request that fails is
   answered 404 (the provider's own HTTP 404) or 503, never 400 or 500.
   */
  lemma AcceptedRequestStatusesAsWritten(input: Option<string>, apiBaseUrl: string, fetch: string -> Fetch<PrimaryStrategy.Payload>, path: string)
    requires IsIcaoCode(Normalize(input))
    ensures var call := GetAirportByIcaoCode(input, ClientAsWritten(apiBaseUrl, fetch));
            call.outcome.Failure? ==> Handle(Domain(call.outcome.error), path).status in {404, 503}
  {
  }

  /** Failover order: priorities 1, 2, 3 for the primary, secondary and tertiary strategies, under distinct names. */
  lemma StrategyOrder()
    ensures PrimaryStrategy.Priority < SecondaryStrategy.Priority < TertiaryStrategy.Priority
    ensures PrimaryStrategy.Priority == 1 && SecondaryStrategy.Priority == 2 && TertiaryStrategy.Priority == 3
    ensures PrimaryStrategy.StrategyName != SecondaryStrategy.StrategyName
    ensures SecondaryStrategy.StrategyName != TertiaryStrategy.StrategyName
    ensures PrimaryStrategy.StrategyName != TertiaryStrategy.StrategyName
  {
  }
}

=== FILE: handler.dfy ===
/**
 GlobalExceptionHandler: which HTTP status, error label and message each kind
 of exception is answered with. The timestamp and the random trace id of the
 error body are not modelled.
 */
module GlobalExceptionHandler {
  import opened Wrappers
  import opened Exceptions

  /** The exceptions a handler is registered for; Other is the catch-all Exception handler. */
  datatype HandledException =
    | Domain(error: AppError)   // AirportNotFoundException, InvalidIcaoCodeException, AviationApiException
    | CallNotPermitted          // circuit breaker open
    | RequestNotPermitted       // rate limit exceeded
    | Other

  datatype ErrorResponse = ErrorResponse(status: int, error: string, message: string, path: string)

  /** The response entity: its HTTP status and its JSON body. */
  datatype ResponseEntity = ResponseEntity(status: int, body: ErrorResponse)

  /** The reason phrase of each HTTP status the handlers use. */
  function ReasonPhrase(status: int): (phrase: Option<string>)
    ensures phrase.Some? <==> status in {400, 404, 429, 500, 503}
    ensures phrase.Some? ==> |phrase.value| > 0
  {
    match status
    case 400 => Some("Bad Request")
    case 404 => Some("Not Found")
    case 429 => Some("Too Many Requests")
    case 500 => Some("Internal Server Error")
    case 503 => Some("Service Unavailable")
    case _ => None
  }

  const ApiErrorMessage := "Unable to retrieve airport data. Please try again later."
  const CircuitOpenMessage := "Service temporarily unavailable. Please try again later."
  const RateLimitMessage := "Rate limit exceeded. Please try again later."
  const InternalErrorMessage := "An unexpected error occurred. Please try again later."

  /**
   The handler chosen for ex, answering a request for path. Not-found and
   invalid-code messages are passed through; the others are fixed texts.
   */
  function Handle(ex: HandledException, path: string): (r: ResponseEntity)
    ensures r.body.status == r.status
    ensures r.body.path == path
    ensures ReasonPhrase(r.status) == Some(r.body.error)
    ensures r.status == 404 <==> ex.Domain? && ex.error.AirportNotFound?
    ensures r.status == 400 <==> ex.Domain? && ex.error.InvalidIcaoCode?
    ensures r.status == 503 <==> (ex.Domain? && ex.error.AviationApi?) || ex.CallNotPermitted?
    ensures r.status == 429 <==> ex.RequestNotPermitted?
    ensures r.status == 500 <==> ex.Other?
    ensures r.status == 404 || r.status == 400 ==> r.body.message == Message(ex.error)
    ensures ex.Domain? && ex.error.AviationApi? ==> r.body.message == ApiErrorMessage
    ensures ex.CallNotPermitted? ==> r.body.message == CircuitOpenMessage
    ensures ex.RequestNotPermitted? ==> r.body.message == RateLimitMessage
    ensures ex.Other? ==> r.body.message == InternalErrorMessage
  {
    match ex
    case Domain(AirportNotFound(code)) =>
      ResponseEntity(404, ErrorResponse(404, "Not Found", NotFoundMessage(code), path))
    case Domain(InvalidIcaoCode(message)) =>
      ResponseEntity(400, ErrorResponse(400, "Bad Request", message, path))
    case Domain(AviationApi(_)) =>
      ResponseEntity(503, ErrorResponse(503, "Service Unavailable", ApiErrorMessage, path))
    case CallNotPermitted =>
      ResponseEntity(503, ErrorResponse(503, "Service Unavailable", CircuitOpenMessage, path))
    case RequestNotPermitted =>
      ResponseEntity(429, ErrorResponse(429, "Too Many Requests", RateLimitMessage, path))
    case Other =>
      ResponseEntity(500, ErrorResponse(500, "Internal Server Error", InternalErrorMessage, path))
  }

  /** An upstream failure's detail never reaches the client: every API error gets the same response. */
  lemma ApiErrorDetailHidden(a: string, b: string, path: string)
    ensures Handle(Domain(AviationApi(a)), path) == Handle(Domain(AviationApi(b)), path)
  {
  }

  /** A not-found response names the code that was not found, and distinct codes give distinct responses. */
  lemma NotFoundResponseNamesCode(a: string, b: string, path: string)
    ensures Handle(Domain(AirportNotFound(a)), path).body.message == NotFoundMessage(a)
    ensures a != b ==> Handle(Domain(AirportNotFound(a)), path) != Handle(Domain(AirportNotFound(b)), path)
  {
    if a != b && NotFoundMessage(a) == NotFoundMessage(b) {
      NotFoundMessageInjective(a, b);
    }
  }
}

=== FILE: legacy.dfy ===
/**
 AviationApiClientImpl: the data client the service calls. It queries the
 primary provider's URL, maps element 0 of the array as the primary strategy
 does, and classifies failures with its own chain of catch clauses.
 */
module AviationApiClient {
  import opened Wrappers
  import opened Airport
  import opened Exceptions
  import opened EndpointStrategy
  import PrimaryStrategy

  /** The URL it fetches: the same template as the primary strategy's. */
  function BuildUrl(apiBaseUrl: string, code: string): (url: string)
    ensures url == PrimaryStrategy.BuildUrl(apiBaseUrl, code)
  {
    apiBaseUrl + "/airport?ids=" + code + "&format=json"
  }

  /**
   The catch clauses in source order: HttpClientErrorException.NotFound,
   HttpClientErrorException, ResourceAccessException, then Exception, which
   also catches the domain exceptions thrown inside the try block.
   */
  function CatchChain(ex: Raised, code: string): (e: AppError)
    ensures IsUpstreamError(e)
    ensures e.AirportNotFound? <==> ex.Runtime? && IsHttpNotFound(ex.failure)
    ensures ex.Thrown? ==> e == AviationApi(UnexpectedMessage)
  {
    match ex
    case Runtime(ClientError(status)) =>
      if status.value == NotFoundStatus then AirportNotFound(code)
      else AviationApi(ReturnedErrorMessage(status))
    case Runtime(ConnectionError) => AviationApi(ConnectMessage)
    case _ => AviationApi(UnexpectedMessage)
  }

  /** On transport failures the catch chain classifies exactly as the strategies' handleException. */
  lemma CatchChainAgreesOnFailures(f: RawFailure, code: string)
    ensures CatchChain(Runtime(f), code) == HandleException(Runtime(f), code)
  {
  }

  /** The difference between the two: a not-found thrown inside the try is rewrapped as an unexpected API error. */
  lemma CatchChainSwallowsNotFound(code: string)
    ensures CatchChain(Thrown(AirportNotFound(code)), code) == AviationApi(UnexpectedMessage)
    ensures HandleException(Thrown(AirportNotFound(code)), code) == AirportNotFound(code)
  {
  }

  /** getAirportByIcaoCode as written: the not-found thrown for an empty array reaches the catch-all. */
  function GetAirportAsWritten(apiBaseUrl: string, code: string, fetch: string -> Fetch<PrimaryStrategy.Payload>): (r: Result<AirportResponse, AppError>)
    ensures r.Failure? ==> IsUpstreamError(r.error)
    ensures r.Failure? && r.error.AirportNotFound? ==> r.error == AirportNotFound(code)
  {
    match fetch(BuildUrl(apiBaseUrl, code))
    case Failed(f) => Failure(CatchChain(Runtime(f), code))
    case Payload(p) =>
      if p.None? || |p.value| == 0 then
        Failure(CatchChain(Thrown(AirportNotFound(code)), code))
      else
        match PrimaryStrategy.MapResponse(p, code)
        case Success(response) => Success(response)
        case Failure(f) => Failure(CatchChain(Runtime(f), code))
  }

  /** As written, a null or empty array is reported as an unavailable API, not as an unknown airport. */
  lemma EmptyArrayIsApiError(apiBaseUrl: string, code: string, fetch: string -> Fetch<PrimaryStrategy.Payload>)
    requires var f := fetch(BuildUrl(apiBaseUrl, code)); f == Payload(None) || f == Payload(Some([]))
    ensures GetAirportAsWritten(apiBaseUrl, code, fetch) == Failure(AviationApi(UnexpectedMessage))
  {
  }

  /** The evidently intended client: the not-found thrown for an empty array is rethrown, as the strategies do. */
  function GetAirport(apiBaseUrl: string, code: string, fetch: string -> Fetch<PrimaryStrategy.Payload>): (r: Result<AirportResponse, AppError>)
    ensures r.Failure? ==> IsUpstreamError(r.error)
    ensures var f := fetch(BuildUrl(apiBaseUrl, code));
            f == Payload(None) || f == Payload(Some([])) ==> r == Failure(AirportNotFound(code))
  {
    match fetch(BuildUrl(apiBaseUrl, code))
    case Failed(f) => Failure(HandleException(Runtime(f), code))
    case Payload(p) =>
      if p.None? || |p.value| == 0 then
        Failure(HandleException(Thrown(AirportNotFound(code)), code))
      else
        match PrimaryStrategy.MapResponse(p, code)
        case Success(response) => Success(response)
        case Failure(f) => Failure(HandleException(Runtime(f), code))
  }

  /** The corrected client answers every request exactly as the primary strategy does. */
  lemma CorrectedMatchesPrimary(apiBaseUrl: string, code: string, fetch: string -> Fetch<PrimaryStrategy.Payload>)
    ensures GetAirport(apiBaseUrl, code, fetch) == PrimaryStrategy.GetAirport(apiBaseUrl, code, fetch)
  {
  }

  /** The as-written client differs from the corrected one only on a null or empty array. */
  lemma AsWrittenDiffersOnlyOnEmpty(apiBaseUrl: string, code: string, fetch: string -> Fetch<PrimaryStrategy.Payload>)
    requires var f := fetch(BuildUrl(apiBaseUrl, code)); f.Payload? ==> f.body.Some? && |f.body.value| > 0
    ensures GetAirportAsWritten(apiBaseUrl, code, fetch) == GetAirport(apiBaseUrl, code, fetch)
  {
    match fetch(BuildUrl(apiBaseUrl, code))
    case Failed(f) =>
      CatchChainAgreesOnFailures(f, code);
    case Payload(p) =>
      match PrimaryStrategy.MapResponse(p, code)
      case Success(_) =>
      case Failure(f) => CatchChainAgreesOnFailures(f, code);
  }
}

=== FILE: primary.dfy ===
/**
 PrimaryAviationEndpointStrategy: the provider answering
 <base>/airport?ids=<code>&format=json with a JSON array of airports.
 */
module PrimaryStrategy {
  import opened Wrappers
  import opened Airport
  import opened Exceptions
  import opened ProviderRecords
  import opened EndpointStrategy

  const StrategyName := "primary"
  /** Lower priorities are tried first. */
  const Priority := 1

  /** The decoded array: null itself, or a list whose elements may be null. */
  type Payload = Option<seq<Option<AviationApiAirportResponse>>>

  const PathPart := "/airport?ids="
  const QueryPart := "&format=json"

  /** buildUrl: the base URL, the path with the code as the ids parameter, and the JSON format flag. */
  function BuildUrl(baseUrl: string, code: string): (url: string)
    ensures |url| == |baseUrl| + |PathPart| + |code| + |QueryPart|
    ensures url[..|baseUrl|] == baseUrl
    ensures url[|baseUrl|..|baseUrl| + |PathPart|] == PathPart
    ensures url[|baseUrl| + |PathPart|..|url| - |QueryPart|] == code
    ensures url[|url| - |QueryPart|..] == QueryPart
  {
    baseUrl + PathPart + code + QueryPart
  }

  /** For one base URL, different codes are sent to different URLs. */
  lemma BuildUrlInjective(baseUrl: string, a: string, b: string)
    requires BuildUrl(baseUrl, a) == BuildUrl(baseUrl, b)
    ensures a == b
  {
  }

  /** validateResponse: a null or zero-length array is a not-found for the requested code. */
  function ValidateResponse(p: Payload, code: string): (r: Option<AppError>)
    ensures r.Some? <==> p.None? || |p.value| == 0
    ensures r.Some? ==> r.value == AirportNotFound(code)
  {
    if p.None? || |p.value| == 0 then Some(AirportNotFound(code)) else None
  }

  /** The canonical record built from one provider record and its derived city. */
  function ToAirportResponse(d: AviationApiAirportResponse, city: Option<string>): AirportResponse {
    AirportResponse(
      icaoCode := d.icaoCode,
      iataCode := d.iataCode,
      name := d.name,
      city := city,
      country := d.country,
      location := Some(LocationInfo(d.latitude, d.longitude)),
      timezone := Some(Utc),
      elevation := d.elevation)
  }

  /** Maps one array element; getCity throws for an all-slash name. */
  function MapRecord(d: AviationApiAirportResponse): (r: Result<AirportResponse, IndexOutOfBounds>)
    ensures r.Success? <==> GetCity(d).Success?
    ensures r.Success? ==> IsCanonical(r.value) && r.value.city == GetCity(d).value
    ensures r.Success? ==> RecordOf(r.value, d.state) == d
  {
    match GetCity(d)
    case Success(city) => Success(ToAirportResponse(d, city))
    case Failure(e) => Failure(e)
  }

  /** Reads a provider record back out of a mapped record; the state, which the mapping drops, is supplied. */
  function RecordOf(r: AirportResponse, state: Option<string>): AviationApiAirportResponse
    requires r.location.Some?
  {
    AviationApiAirportResponse(
      r.icaoCode, r.iataCode, r.name, state, r.country,
      r.location.value.latitude, r.location.value.longitude, r.elevation)
  }

  /** Mapping loses only the state: icao, iata, name, country, latitude, longitude and elevation are copied unchanged. */
  lemma MapRecordKeepsFields(d: AviationApiAirportResponse)
    requires MapRecord(d).Success?
    ensures RecordOf(MapRecord(d).value, d.state) == d
  {
  }

  /**
   mapToAirportResponse: element 0 only. A null or empty array (never passed
   once validation holds) and a null element fail as a dereference would.
   */
  function MapResponse(p: Payload, code: string): (r: Result<AirportResponse, RawFailure>)
    ensures r.Success? ==> p.Some? && |p.value| > 0 && p.value[0].Some? && MapRecord(p.value[0].value) == Success(r.value)
    ensures p.Some? && |p.value| > 0 && p.value[0].Some? && MapRecord(p.value[0].value).Success? ==> r.Success?
    ensures r.Failure? ==> r.error == Unexpected
  {
    if p.None? || |p.value| == 0 then Failure(Unexpected)
    else match p.value[0]
      case None => Failure(Unexpected)
      case Some(d) =>
        match MapRecord(d)
        case Success(response) => Success(response)
        case Failure(_) => Failure(Unexpected)
  }

  /** The requested code plays no part in the mapping: the record's codes come from the payload. */
  lemma MappingIgnoresRequestedCode(p: Payload, a: string, b: string)
    ensures MapResponse(p, a) == MapResponse(p, b)
  {
  }

  /** getAirportByIcaoCode of the primary strategy. */
  function GetAirport(baseUrl: string, code: string, fetch: string -> Fetch<Payload>): (r: Result<AirportResponse, AppError>)
    ensures r.Failure? ==> IsUpstreamError(r.error)
    ensures r.Success? ==> IsCanonical(r.value)
  {
    Run(BuildUrl(baseUrl, code), code, fetch, ValidateResponse, MapResponse)
  }

  /** A null array, an empty array and an HTTP 404 all surface as not-found for the requested code. */
  lemma NotFoundCases(baseUrl: string, code: string, fetch: string -> Fetch<Payload>)
    requires var f := fetch(BuildUrl(baseUrl, code));
             f == Payload(None) || f == Payload(Some([])) || (f.Failed? && IsHttpNotFound(f.failure))
    ensures GetAirport(baseUrl, code, fetch) == Failure(AirportNotFound(code))
  {
  }

  /**
   A non-empty array whose element 0 maps gives exactly that element's record,
   with the derived city and the fixed timezone; later elements are ignored.
   */
  lemma FirstElementWins(baseUrl: string, code: string, fetch: string -> Fetch<Payload>, d: AviationApiAirportResponse, rest: seq<Option<AviationApiAirportResponse>>)
    requires fetch(BuildUrl(baseUrl, code)) == Payload(Some([Some(d)] + rest))
    requires GetCity(d).Success?
    ensures GetAirport(baseUrl, code, fetch) == Success(ToAirportResponse(d, GetCity(d).value))
  {
  }

  /** A non-empty array whose element 0 is null, or whose name is all slashes, is an unexpected error. */
  lemma BrokenFirstElement(baseUrl: string, code: string, fetch: string -> Fetch<Payload>)
    requires var f := fetch(BuildUrl(baseUrl, code));
             f.Payload? && f.body.Some? && |f.body.value| > 0 &&
             (f.body.value[0].None? || GetCity(f.body.value[0].value).Failure?)
    ensures GetAirport(baseUrl, code, fetch) == Failure(AviationApi(UnexpectedMessage))
  {
  }
}

=== FILE: records.dfy ===
/**
 The three provider payload shapes as Jackson decodes them (every field may be
 null), and the primary provider's rule deriving a city from the airport name.
 */
module ProviderRecords {
  import opened Wrappers
  import opened Text
  import opened Airport

  /** One element of the primary provider's JSON array (AviationApiAirportResponse). */
  datatype AviationApiAirportResponse = AviationApiAirportResponse(
    icaoCode: Option<string>,   // "icaoId"
    iataCode: Option<string>,   // "iataId"
    name: Option<string>,       // "name"
    state: Option<string>,      // "state"
    country: Option<string>,    // "country"
    latitude: Option<real>,     // "lat"
    longitude: Option<real>,    // "lon"
    elevation: Option<int32>    // "elev", feet
  )

  /** The secondary provider's object (SecondaryAviationApiResponse). */
  datatype SecondaryAviationApiResponse = SecondaryAviationApiResponse(
    icaoCode: Option<string>,   // "code"
    iataCode: Option<string>,   // "iata"
    name: Option<string>,       // "airportName"
    city: Option<string>,       // "cityName"
    country: Option<string>,    // "countryName"
    latitude: Option<real>,     // "lat"
    longitude: Option<real>,    // "lng"
    elevation: Option<int32>    // "elevationFt"
  )

  /** The tertiary provider's object (TertiaryAviationApiResponse). */
  datatype TertiaryAviationApiResponse = TertiaryAviationApiResponse(
    icaoCode: Option<string>,   // "icao"
    iataCode: Option<string>,   // "iata_code"
    name: Option<string>,       // "full_name"
    city: Option<string>,       // "city"
    country: Option<string>,    // "country_code"
    latitude: Option<real>,     // "latitude"
    longitude: Option<real>,    // "longitude"
    elevation: Option<int32>    // "elevation_meters"
  )

  /** Indexing element 0 of an empty array throws. */
  datatype IndexOutOfBounds = ArrayIndexOutOfBounds

  /**
   getCity: a null name gives a null city; a name without '/' is the city as
   it stands (untrimmed); otherwise the city is element 0 of name.split("/"),
   trimmed, and that index throws when split returns nothing.
   */
  function GetCity(r: AviationApiAirportResponse): (c: Result<Option<string>, IndexOutOfBounds>)
    ensures r.name.None? ==> c == Success(None)
    ensures r.name.Some? && '/' !in r.name.value ==> c == Success(r.name)
    ensures r.name.Some? && '/' in r.name.value && OnlyChar(r.name.value, '/') ==> c.Failure?
    ensures r.name.Some? && '/' in r.name.value && !OnlyChar(r.name.value, '/') ==>
              c == Success(Some(Trim(r.name.value[..IndexOf(r.name.value, '/')])))
    ensures c.Success? && c.value.Some? ==> '/' !in c.value.value
  {
    match r.name
    case None => Success(None)
    case Some(n) =>
      if '/' in n then
        var parts := JavaSplit(n, '/');
        SplitFirstElement(n, '/');
        if |parts| == 0 then
          Failure(ArrayIndexOutOfBounds)
        else
          var city := Trim(parts[0]);
          TrimKeepsOnlyInputChars(parts[0], '/');
          Success(Some(city))
      else
        Success(Some(n))
  }

  /** A name that starts with '/' but is not all slashes gives the empty city. */
  lemma CityOfLeadingSlash(r: AviationApiAirportResponse)
    requires r.name.Some? && |r.name.value| > 0 && r.name.value[0] == '/'
    requires !OnlyChar(r.name.value, '/')
    ensures GetCity(r) == Success(Some(""))
  {
    assert r.name.value[0] in r.name.value;
  }

  /** Feeding a derived city back in as the name gives the same city: the rule is idempotent. */
  lemma CityIdempotent(r: AviationApiAirportResponse)
    requires GetCity(r).Success?
    ensures GetCity(r.(name := GetCity(r).value)) == GetCity(r)
  {
  }

  /** The state field never contributes to the city. */
  lemma CityIgnoresState(r: AviationApiAirportResponse, state: Option<string>)
    ensures GetCity(r.(state := state)) == GetCity(r)
  {
  }
}

=== FILE: secondary.dfy ===
/**
 SecondaryAviationEndpointStrategy: the provider answering
 <base>/api/airports/<code> with one airport object.
 */
module SecondaryStrategy {
  import opened Wrappers
  import opened Airport
  import opened Exceptions
  import opened ProviderRecords
  import opened EndpointStrategy

  const StrategyName := "secondary"
  const Priority := 2

  /** The decoded object, or null. */
  type Payload = Option<SecondaryAviationApiResponse>

  const PathPart := "/api/airports/"

  /** buildUrl: the base URL, the airports path, then the code. */
  function BuildUrl(baseUrl: string, code: string): (url: string)
    ensures |url| == |baseUrl| + |PathPart| + |code|
    ensures url[..|baseUrl|] == baseUrl
    ensures url[|baseUrl|..|baseUrl| + |PathPart|] == PathPart
    ensures url[|baseUrl| + |PathPart|..] == code
  {
    baseUrl + PathPart + code
  }

  /** validateResponse: a null object, or one without an ICAO code, is a not-found for the requested code. */
  function ValidateResponse(p: Payload, code: string): (r: Option<AppError>)
    ensures r.Some? <==> p.None? || p.value.icaoCode.None?
    ensures r.Some? ==> r.value == AirportNotFound(code)
  {
    if p.None? || p.value.icaoCode.None? then Some(AirportNotFound(code)) else None
  }

  /** mapToAirportResponse: every field is copied (elevation is already in feet, the city is the provider's own). */
  function MapRecord(d: SecondaryAviationApiResponse): (r: AirportResponse)
    ensures IsCanonical(r)
  {
    AirportResponse(
      icaoCode := d.icaoCode,
      iataCode := d.iataCode,
      name := d.name,
      city := d.city,
      country := d.country,
      location := Some(LocationInfo(d.latitude, d.longitude)),
      timezone := Some(Utc),
      elevation := d.elevation)
  }

  /** Reads the provider object back out of a mapped record. */
  function RecordOf(r: AirportResponse): SecondaryAviationApiResponse
    requires r.location.Some?
  {
    SecondaryAviationApiResponse(
      r.icaoCode, r.iataCode, r.name, r.city, r.country,
      r.location.value.latitude, r.location.value.longitude, r.elevation)
  }

  /** The mapping loses nothing: every provider field, the city and the elevation included, lands in its own slot. */
  lemma MapRecordLossless(d: SecondaryAviationApiResponse)
    ensures RecordOf(MapRecord(d)) == d
  {
  }

  /** A null object fails as a dereference would (never reached once validation holds). */
  function MapResponse(p: Payload, code: string): (r: Result<AirportResponse, RawFailure>)
    ensures r.Success? <==> p.Some?
    ensures p.Some? ==> r.value == MapRecord(p.value)
    ensures r.Failure? ==> r.error == Unexpected
  {
    match p
    case None => Failure(Unexpected)
    case Some(d) => Success(MapRecord(d))
  }

  /** getAirportByIcaoCode of the secondary strategy. */
  function GetAirport(baseUrl: string, code: string, fetch: string -> Fetch<Payload>): (r: Result<AirportResponse, AppError>)
    ensures r.Failure? ==> IsUpstreamError(r.error)
    ensures r.Success? ==> IsCanonical(r.value)
  {
    Run(BuildUrl(baseUrl, code), code, fetch, ValidateResponse, MapResponse)
  }

  /** A null object, an object without ICAO code and an HTTP 404 all surface as not-found for the requested code. */
  lemma NotFoundCases(baseUrl: string, code: string, fetch: string -> Fetch<Payload>)
    requires var f := fetch(BuildUrl(baseUrl, code));
             f == Payload(None) || (f.Payload? && f.body.Some? && f.body.value.icaoCode.None?) ||
             (f.Failed? && IsHttpNotFound(f.failure))
    ensures GetAirport(baseUrl, code, fetch) == Failure(AirportNotFound(code))
  {
  }

  /** An object with an ICAO code is returned mapped, whatever code was asked for. */
  lemma FoundCase(baseUrl: string, code: string, fetch: string -> Fetch<Payload>, d: SecondaryAviationApiResponse)
    requires fetch(BuildUrl(baseUrl, code)) == Payload(Some(d)) && d.icaoCode.Some?
    ensures GetAirport(baseUrl, code, fetch) == Success(MapRecord(d))
  {
  }
}

=== FILE: service.dfy ===
/**
 AirportService.getAirportByIcaoCode: the requested code is trimmed and
 upper-cased, checked against the pattern ^[A-Z]{4}$, and only a code that
 passes is handed to the data client, whose answer is returned as it is.
 */
module AirportService {
  import opened Wrappers
  import opened Text
  import opened Airport
  import opened Exceptions

  predicate IsUpperLetter(c: char) {
    'A' <= c <= 'Z'
  }

  /** A valid ICAO code: exactly four chars, each an ASCII capital letter. */
  predicate IsIcaoCode(k: string) {
    |k| == 4 && forall i :: 0 <= i < |k| ==> IsUpperLetter(k[i])
  }

  /** The whole of s matches the regular expression [A-Z]{n}. */
  predicate MatchesUpperRun(s: string, n: nat) {
    if n == 0 then s == [] else |s| > 0 && IsUpperLetter(s[0]) && MatchesUpperRun(s[1..], n - 1)
  }

  /** ICAO_CODE_PATTERN.matcher(s).matches(), for the pattern ^[A-Z]{4}$. */
  predicate MatchesIcaoPattern(s: string)
    ensures MatchesIcaoPattern(s) ==> |s| == 4 && IsUpperLetter(s[0])
  {
    UpperRunMeansLetters(s, 4);
    MatchesUpperRun(s, 4)
  }

  /** A full match of [A-Z]{n} is exactly n capital letters. */
  lemma {:induction false} UpperRunMeansLetters(s: string, n: nat)
    ensures MatchesUpperRun(s, n) <==> (|s| == n && forall i :: 0 <= i < |s| ==> IsUpperLetter(s[i]))
  {
    if n > 0 && |s| > 0 {
      UpperRunMeansLetters(s[1..], n - 1);
      if IsUpperLetter(s[0]) && |s| == n && MatchesUpperRun(s[1..], n - 1) {
        forall i | 0 <= i < |s|
          ensures IsUpperLetter(s[i])
        {
          if i > 0 {
            assert s[i] == s[1..][i - 1];
          }
        }
      }
      if |s| == n && (forall i :: 0 <= i < |s| ==> IsUpperLetter(s[i])) {
        assert forall i :: 0 <= i < |s[1..]| ==> IsUpperLetter(s[1..][i]) by {
          forall i | 0 <= i < |s[1..]|
            ensures IsUpperLetter(s[1..][i])
          {
            assert s[1..][i] == s[i + 1];
          }
        }
      }
    }
  }

  /** The pattern check accepts exactly the valid ICAO codes. */
  lemma PatternIsIcaoCode(s: string)
    ensures MatchesIcaoPattern(s) <==> IsIcaoCode(s)
  {
    UpperRunMeansLetters(s, 4);
  }

  /**
   k is what the service hands on for the request s: s with only chars <= ' '
   dropped from its two ends, leaving a trimmed stretch t, and t upper-cased.
   */
  ghost predicate IsNormalFormOf(s: string, k: string) {
    exists i, t :: IsTrimSplit(s, i, t) && IsTrimmed(t) && k == ToUpperAscii(t)
  }

  /** The code handed on: trimmed and upper-cased; a null request becomes the empty string. */
  function Normalize(input: Option<string>): (k: string)
    ensures IsTrimmed(k)
    ensures NoLowerAscii(k)
    ensures input.None? ==> k == ""
    ensures input.Some? ==> IsNormalFormOf(input.value, k)
  {
    match input
    case None => ""
    case Some(s) =>
      var t := Trim(s);
      UpperKeepsTrimmed(t);
      UpperLeavesNoLower(t);
      TrimDropsOnlyEnds(s);
      ToUpperAscii(t)
  }

  /** A normalised code has no blank at either end, and normalising it again changes nothing. */
  lemma NormalizeIdempotent(input: Option<string>)
    ensures IsTrimmed(Normalize(input))
    ensures Normalize(Some(Normalize(input))) == Normalize(input)
  {
    if input.Some? {
      var t := Trim(input.value);
      UpperKeepsTrimmed(t);
      TrimOfTrimmed(ToUpperAscii(t));
      UpperIdempotent(t);
    }
  }

  /** An accepted code normalises to itself. */
  lemma AcceptedCodeIsNormal(k: string)
    requires IsIcaoCode(k)
    ensures Normalize(Some(k)) == k
  {
    assert IsTrimmed(k);
    UpperOfIcaoCode(k);
    TrimOfTrimmed(k);
  }

  /** Upper-casing leaves a valid code unchanged. */
  lemma UpperOfIcaoCode(k: string)
    requires IsIcaoCode(k)
    ensures ToUpperAscii(k) == k
  {
    var r := ToUpperAscii(k);
    forall i | 0 <= i < |k|
      ensures r[i] == k[i]
    {
      assert IsUpperLetter(k[i]);
    }
  }

  /** A request made of blanks only (or null) normalises to the empty code. */
  lemma BlankNormalizesToEmpty(s: string)
    requires AllTrimmable(s)
    ensures Normalize(Some(s)) == ""
    ensures Normalize(None) == ""
  {
    TrimEmptyIff(s);
  }

  /** validateIcaoCode: None when the code passes, otherwise the exception it throws. */
  function ValidateIcaoCode(code: string): (r: Option<AppError>)
    ensures r == None <==> IsIcaoCode(code)
    ensures code == "" ==> r == Some(InvalidIcaoCode(EmptyCodeMessage))
    ensures code != "" && !IsIcaoCode(code) ==> r == Some(InvalidIcaoCode(FormatMessage(code)))
  {
    PatternIsIcaoCode(code);
    if code == "" then Some(InvalidIcaoCode(EmptyCodeMessage))
    else if !MatchesIcaoPattern(code) then Some(InvalidIcaoCode(FormatMessage(code)))
    else None
  }

  /** What one call of the service did: the codes it passed to the data client, in order, and its answer. */
  datatype ServiceCall = ServiceCall(clientCalls: seq<string>, outcome: Result<AirportResponse, AppError>)

  /** The data client (AviationDataClient): a code in, a record or a thrown domain exception out. */
  type DataClient = string -> Result<AirportResponse, AppError>

  function GetAirportByIcaoCode(input: Option<string>, client: DataClient): (r: ServiceCall)
    ensures IsIcaoCode(Normalize(input)) ==> r.clientCalls == [Normalize(input)] && r.outcome == client(Normalize(input))
    ensures !IsIcaoCode(Normalize(input)) ==> r.clientCalls == [] && r.outcome.Failure? && r.outcome.error.InvalidIcaoCode?
    ensures Normalize(input) == "" ==> r.outcome == Failure(InvalidIcaoCode(EmptyCodeMessage))
    ensures Normalize(input) != "" && !IsIcaoCode(Normalize(input)) ==>
              r.outcome == Failure(InvalidIcaoCode(FormatMessage(Normalize(input))))
  {
    var code := Normalize(input);
    match ValidateIcaoCode(code)
    case Some(e) => ServiceCall([], Failure(e))
    case None => ServiceCall([code], client(code))
  }

  /** A rejected request never depends on the data client: any two clients give the same answer. */
  lemma RejectedIgnoresClient(input: Option<string>, c1: DataClient, c2: DataClient)
    requires !IsIcaoCode(Normalize(input))
    ensures GetAirportByIcaoCode(input, c1) == GetAirportByIcaoCode(input, c2)
  {
  }

  /** Requests that differ only in case and surrounding blanks are served identically. */
  lemma SameNormalFormSameAnswer(a: Option<string>, b: Option<string>, client: DataClient)
    requires Normalize(a) == Normalize(b)
    ensures GetAirportByIcaoCode(a, client) == GetAirportByIcaoCode(b, client)
  {
  }

  /** "kjfk" reaches the client as "KJFK". */
  lemma LowerCaseExample()
    ensures Normalize(Some("kjfk")) == "KJFK"
  {
    TrimOfTrimmed("kjfk");
    assert ToUpperAscii("kjfk") == "KJFK";
  }

  /** Blanks around a valid code are ignored: the padded code normalises to the code itself. */
  lemma PaddedCodeIsNormal(pre: string, k: string, post: string)
    requires AllTrimmable(pre) && AllTrimmable(post) && IsIcaoCode(k)
    ensures Normalize(Some(pre + k + post)) == k
  {
    var s := pre + k + post;
    TrimOfPadded(pre, k, post);
    assert Trim(s) == k;
    UpperOfIcaoCode(k);
    assert Normalize(Some(s)) == ToUpperAscii(k);
  }

  /** "  KJFK  " reaches the client as "KJFK". */
  lemma PaddedExample()
    ensures Normalize(Some("  KJFK  ")) == "KJFK"
  {
    var blank, k := "  ", "KJFK";
    assert IsIcaoCode(k);
    PaddedCodeIsNormal(blank, k, blank);
    assert blank + k + blank == "  KJFK  ";
  }

  /** Lower case and surrounding blanks are normalised away before the client is called (the unit tests' accepted cases). */
  lemma AcceptedExamples(client: DataClient)
    ensures GetAirportByIcaoCode(Some("KJFK"), client).clientCalls == ["KJFK"]
    ensures GetAirportByIcaoCode(Some("kjfk"), client).clientCalls == ["KJFK"]
    ensures GetAirportByIcaoCode(Some("  KJFK  "), client).clientCalls == ["KJFK"]
  {
    assert IsIcaoCode("KJFK");
    AcceptedCodeIsNormal("KJFK");
    LowerCaseExample();
    PaddedExample();
  }

  /** A non-empty code already in normal form that is not a valid code is rejected with the format message as it stands. */
  lemma RejectedAsTyped(k: string, client: DataClient)
    requires IsTrimmed(k) && ToUpperAscii(k) == k && k != "" && !IsIcaoCode(k)
    ensures GetAirportByIcaoCode(Some(k), client) == ServiceCall([], Failure(InvalidIcaoCode(FormatMessage(k))))
  {
    TrimOfTrimmed(k);
  }

  /** Too short, too long, a digit and a symbol: the unit tests' malformed codes are rejected with the format message. */
  lemma MalformedExample(k: string, client: DataClient)
    requires k == "ABC" || k == "ABCDE" || k == "K1FK" || k == "K@FK"
    ensures GetAirportByIcaoCode(Some(k), client) == ServiceCall([], Failure(InvalidIcaoCode(FormatMessage(k))))
  {
    if k == "ABC" {
      assert ToUpperAscii(k) == k;
    } else if k == "ABCDE" {
      assert ToUpperAscii(k) == k;
    } else if k == "K1FK" {
      assert ToUpperAscii(k) == k;
      assert !IsUpperLetter(k[1]);
    } else {
      assert ToUpperAscii(k) == k;
      assert !IsUpperLetter(k[1]);
    }
    RejectedAsTyped(k, client);
  }

  /** A null or empty request gets the empty-code error. */
  lemma EmptyExamples(client: DataClient)
    ensures GetAirportByIcaoCode(None, client).outcome == Failure(InvalidIcaoCode(EmptyCodeMessage))
    ensures GetAirportByIcaoCode(Some(""), client).outcome == Failure(InvalidIcaoCode(EmptyCodeMessage))
  {
    assert Normalize(Some("")) == "";
  }
}

=== FILE: strategy.dfy ===
/**
 What the three endpoint strategies share (AbstractAviationEndpointStrategy):
 the raw failures a call can raise, their classification into the two domain
 exceptions by handleException, and the fetch, validate, map pipeline each
 strategy's getAirportByIcaoCode runs inside one try block.
 */
module EndpointStrategy {
  import opened Wrappers
  import opened Airport
  import opened Exceptions

  /** An HTTP status as the transport reports it: its number, and the text its toString gives. */
  datatype StatusCode = StatusCode(value: int, text: string)

  const NotFoundStatus := 404

  /** A failure raised while fetching or mapping a payload, before any classification. */
  datatype RawFailure =
    | ClientError(status: StatusCode)   // HttpClientErrorException; its NotFound subclass when the status is 404
    | ServerError(status: StatusCode)   // HttpServerErrorException, not a client error
    | ConnectionError                   // ResourceAccessException: timeout or refused connection
    | Unexpected                        // anything else: a decoding error, a null dereference, a bad index

  /** What the transport produced for one URL: a decoded payload (which may itself be null) or a failure. */
  datatype Fetch<T> = Payload(body: T) | Failed(failure: RawFailure)

  /** Whatever reaches a strategy's catch block: a raw failure or a domain exception thrown inside the try. */
  datatype Raised = Runtime(failure: RawFailure) | Thrown(error: AppError)

  predicate IsHttpNotFound(f: RawFailure) {
    f.ClientError? && f.status.value == NotFoundStatus
  }

  /** The raised things that mean "no such airport": an HTTP 404, or a not-found already thrown. */
  predicate SignalsNotFound(ex: Raised) {
    (ex.Runtime? && IsHttpNotFound(ex.failure)) || (ex.Thrown? && ex.error.AirportNotFound?)
  }

  function ReturnedErrorMessage(status: StatusCode): string {
    ReturnedErrorPrefix + status.text
  }

  /**
   handleException: never returns normally; each branch throws one of the two
   domain exceptions, tested in the source's order (404 before any other client
   error, then connection failures, then already classified exceptions, then
   everything else).
   */
  function HandleException(ex: Raised, code: string): (e: AppError)
    ensures IsUpstreamError(e)
    ensures e.AirportNotFound? <==> SignalsNotFound(ex)
    ensures ex.Runtime? && IsHttpNotFound(ex.failure) ==> e == AirportNotFound(code)
    ensures ex.Runtime? && ex.failure.ClientError? && !IsHttpNotFound(ex.failure) ==>
              e == AviationApi(ReturnedErrorMessage(ex.failure.status))
    ensures ex == Runtime(ConnectionError) ==> e == AviationApi(ConnectMessage)
    ensures ex.Thrown? && IsUpstreamError(ex.error) ==> e == ex.error
    ensures ex.Runtime? && (ex.failure.ServerError? || ex.failure.Unexpected?) ==> e == AviationApi(UnexpectedMessage)
    ensures ex.Thrown? && ex.error.InvalidIcaoCode? ==> e == AviationApi(UnexpectedMessage)
  {
    match ex
    case Runtime(ClientError(status)) =>
      if status.value == NotFoundStatus then AirportNotFound(code)
      else AviationApi(ReturnedErrorMessage(status))
    case Runtime(ConnectionError) => AviationApi(ConnectMessage)
    case Thrown(e) =>
      if e.AirportNotFound? || e.AviationApi? then e else AviationApi(UnexpectedMessage)
    case _ => AviationApi(UnexpectedMessage)
  }

  /** Classifying an already classified exception again changes nothing: no double wrapping. */
  lemma HandleExceptionIdempotent(ex: Raised, code: string, other: string)
    ensures HandleException(Thrown(HandleException(ex, code)), other) == HandleException(ex, code)
  {
  }

  /**
   getAirportByIcaoCode of a strategy: fetch the URL, validate the payload (a
   not-found is thrown there), map it; whatever is raised on the way goes
   through handleException.
   */
  function Run<T>(
    url: string,
    code: string,
    fetch: string -> Fetch<T>,
    validate: (T, string) -> Option<AppError>,
    mapper: (T, string) -> Result<AirportResponse, RawFailure>
  ): (r: Result<AirportResponse, AppError>)
    ensures r.Failure? ==> IsUpstreamError(r.error)
    ensures r.Success? <==>
              fetch(url).Payload? && validate(fetch(url).body, code).None? && mapper(fetch(url).body, code).Success?
    ensures r.Success? ==> r == Success(mapper(fetch(url).body, code).value)
    ensures fetch(url).Failed? ==> r == Failure(HandleException(Runtime(fetch(url).failure), code))
    ensures fetch(url).Payload? && validate(fetch(url).body, code).Some? ==>
              r == Failure(HandleException(Thrown(validate(fetch(url).body, code).value), code))
    ensures fetch(url).Payload? && validate(fetch(url).body, code).None? && mapper(fetch(url).body, code).Failure? ==>
              r == Failure(HandleException(Runtime(mapper(fetch(url).body, code).error), code))
  {
    match fetch(url)
    case Failed(f) => Failure(HandleException(Runtime(f), code))
    case Payload(body) =>
      match validate(body, code)
      case Some(e) => Failure(HandleException(Thrown(e), code))
      case None =>
        match mapper(body, code)
        case Success(response) => Success(response)
        case Failure(f) => Failure(HandleException(Runtime(f), code))
  }

  /** An HTTP 404 from the provider surfaces as not-found for the requested code, never as an API error. */
  lemma RunHttpNotFound<T>(
    url: string,
    code: string,
    fetch: string -> Fetch<T>,
    validate: (T, string) -> Option<AppError>,
    mapper: (T, string) -> Result<AirportResponse, RawFailure>
  )
    requires fetch(url).Failed? && IsHttpNotFound(fetch(url).failure)
    ensures Run(url, code, fetch, validate, mapper) == Failure(AirportNotFound(code))
  {
  }
}

=== FILE: tertiary.dfy ===
/**
 TertiaryAviationEndpointStrategy: the provider answering
 <base>/v1/airport/<code> with one airport object whose elevation is in metres.
 */
module TertiaryStrategy {
  import opened Wrappers
  import opened Airport
  import opened Exceptions
  import opened ProviderRecords
  import opened EndpointStrategy

  const StrategyName := "tertiary"
  const Priority := 3

  /** The decoded object, or null. */
  type Payload = Option<TertiaryAviationApiResponse>

  const PathPart := "/v1/airport/"

  /** buildUrl: the base URL, the airport path, then the code. */
  function BuildUrl(baseUrl: string, code: string): (url: string)
    ensures |url| == |baseUrl| + |PathPart| + |code|
    ensures url[..|baseUrl|] == baseUrl
    ensures url[|baseUrl|..|baseUrl| + |PathPart|] == PathPart
    ensures url[|baseUrl| + |PathPart|..] == code
  {
    baseUrl + PathPart + code
  }

  /** validateResponse: a null object, or one without an ICAO code, is a not-found for the requested code. */
  function ValidateResponse(p: Payload, code: string): (r: Option<AppError>)
    ensures r.Some? <==> p.None? || p.value.icaoCode.None?
    ensures r.Some? ==> r.value == AirportNotFound(code)
  {
    if p.None? || p.value.icaoCode.None? then Some(AirportNotFound(code)) else None
  }

  /** Feet per metre, as the exact fraction 328084 / 100000 of the constant 3.28084. */
  const FeetNumerator := 328084
  const FeetDenominator := 100000

  /** Math.round(e * 3.28084), computed exactly: add one half, then round down. */
  function RoundedFeet(e: int): int {
    (e * FeetNumerator + FeetDenominator / 2) / FeetDenominator
  }

  const TwoTo32 := 0x1_0000_0000

  /** The (int) cast of a long: keeps the low 32 bits as a two's complement value. */
  function NarrowToInt(x: int): (r: int32)
    ensures (r as int - x) % TwoTo32 == 0
    ensures -0x8000_0000 <= x < 0x8000_0000 ==> r as int == x
  {
    ((x + 0x8000_0000) % TwoTo32 - 0x8000_0000) as int32
  }

  /** The converted elevation fits an int, so the cast keeps it whole. */
  predicate FitsInt(e: int) {
    -0x8000_0000 <= RoundedFeet(e) < 0x8000_0000
  }

  /** Metres to feet, rounded half up; outside the int range the cast wraps it around. */
  function MetresToFeet(e: int32): (f: int32)
    ensures FitsInt(e as int) ==>
              f as int * FeetDenominator <= e as int * FeetNumerator + FeetDenominator / 2 < (f as int + 1) * FeetDenominator
  {
    NarrowToInt(RoundedFeet(e as int))
  }

  /** Every elevation within about 654 million metres either way converts without wrap-around. */
  lemma RealisticElevationsFit(e: int)
    requires -654552995 <= e <= 654552994
    ensures FitsInt(e)
  {
  }

  /** A higher elevation in metres never gives a lower one in feet, as long as neither wraps around. */
  lemma {:induction false} MetresToFeetMonotone(a: int32, b: int32)
    requires a <= b && FitsInt(a as int) && FitsInt(b as int)
    ensures MetresToFeet(a) <= MetresToFeet(b)
  {
    var fa, fb := MetresToFeet(a) as int, MetresToFeet(b) as int;
    assert a as int * FeetNumerator <= b as int * FeetNumerator;
    assert fa * FeetDenominator < (fb + 1) * FeetDenominator;
  }

  /** 100 metres is 328 feet. */
  lemma HundredMetres()
    ensures MetresToFeet(100) == 328
  {
  }

  /** mapToAirportResponse: fields copied one to one, elevation converted when present. */
  function MapRecord(d: TertiaryAviationApiResponse): (r: AirportResponse)
    ensures IsCanonical(r)
    ensures d.elevation.None? <==> r.elevation.None?
    ensures d.elevation.Some? ==> r.elevation == Some(MetresToFeet(d.elevation.value))
  {
    AirportResponse(
      icaoCode := d.icaoCode,
      iataCode := d.iataCode,
      name := d.name,
      city := d.city,
      country := d.country,
      location := Some(LocationInfo(d.latitude, d.longitude)),
      timezone := Some(Utc),
      elevation := match d.elevation
        case None => None
        case Some(e) => Some(MetresToFeet(e)))
  }

  /** Reads the provider object back out of a mapped record, except for the elevation, which is supplied. */
  function RecordOf(r: AirportResponse, elevation: Option<int32>): TertiaryAviationApiResponse
    requires r.location.Some?
  {
    TertiaryAviationApiResponse(
      r.icaoCode, r.iataCode, r.name, r.city, r.country,
      r.location.value.latitude, r.location.value.longitude, elevation)
  }

  /** Apart from the elevation, every provider field lands unchanged in its own slot. */
  lemma MapRecordKeepsFields(d: TertiaryAviationApiResponse)
    ensures RecordOf(MapRecord(d), d.elevation) == d
  {
  }

  /** A null object fails as a dereference would (never reached once validation holds). */
  function MapResponse(p: Payload, code: string): (r: Result<AirportResponse, RawFailure>)
    ensures r.Success? <==> p.Some?
    ensures p.Some? ==> r.value == MapRecord(p.value)
    ensures r.Failure? ==> r.error == Unexpected
  {
    match p
    case None => Failure(Unexpected)
    case Some(d) => Success(MapRecord(d))
  }

  /** getAirportByIcaoCode of the tertiary strategy. */
  function GetAirport(baseUrl: string, code: string, fetch: string -> Fetch<Payload>): (r: Result<AirportResponse, AppError>)
    ensures r.Failure? ==> IsUpstreamError(r.error)
    ensures r.Success? ==> IsCanonical(r.value)
  {
    Run(BuildUrl(baseUrl, code), code, fetch, ValidateResponse, MapResponse)
  }

  /** A null object, an object without ICAO code and an HTTP 404 all surface as not-found for the requested code. */
  lemma NotFoundCases(baseUrl: string, code: string, fetch: string -> Fetch<Payload>)
    requires var f := fetch(BuildUrl(baseUrl, code));
             f == Payload(None) || (f.Payload? && f.body.Some? && f.body.value.icaoCode.None?) ||
             (f.Failed? && IsHttpNotFound(f.failure))
    ensures GetAirport(baseUrl, code, fetch) == Failure(AirportNotFound(code))
  {
  }

  /** An object with an ICAO code is returned mapped, its elevation in feet. */
  lemma FoundCase(baseUrl: string, code: string, fetch: string -> Fetch<Payload>, d: TertiaryAviationApiResponse)
    requires fetch(BuildUrl(baseUrl, code)) == Payload(Some(d)) && d.icaoCode.Some?
    ensures GetAirport(baseUrl, code, fetch) == Success(MapRecord(d))
  {
  }
}

=== FILE: text.dfy ===
/**
 The three java.lang.String operations the airport lookup relies on, on
 strings as sequences of chars: trim, upper-casing (ASCII letters only) and
 split around a single literal character.
 */
module Text {

  /** A char String.trim removes from either end: every char at or below U+0020. */
  predicate IsTrimmable(c: char) {
    c <= ' '
  }

  predicate AllTrimmable(s: string) {
    forall i :: 0 <= i < |s| ==> IsTrimmable(s[i])
  }

  /** Neither end of s holds a trimmable char. */
  predicate IsTrimmed(s: string) {
    s == [] || (!IsTrimmable(s[0]) && !IsTrimmable(s[|s| - 1]))
  }

  /** r is what is left of s after dropping i trimmable chars at the front and only trimmable chars at the back. */
  predicate IsTrimSplit(s: string, i: int, r: string) {
    && 0 <= i <= i + |r| <= |s|
    && r == s[i..i + |r|]
    && AllTrimmable(s[..i])
    && AllTrimmable(s[i + |r|..])
  }

  function TrimStart(s: string): (r: string)
    ensures |r| <= |s| && r == s[|s| - |r|..]
    ensures AllTrimmable(s[..|s| - |r|])
    ensures r == [] || !IsTrimmable(r[0])
  {
    if |s| > 0 && IsTrimmable(s[0]) then
      var r := TrimStart(s[1..]);
      assert s[..|s| - |r|] == [s[0]] + s[1..][..|s[1..]| - |r|];
      r
    else
      s
  }

  function TrimEnd(s: string): (r: string)
    ensures |r| <= |s| && r == s[..|r|]
    ensures AllTrimmable(s[|r|..])
    ensures r == [] || !IsTrimmable(r[|r| - 1])
  {
    if |s| > 0 && IsTrimmable(s[|s| - 1]) then
      var r := TrimEnd(s[..|s| - 1]);
      assert s[|r|..] == s[..|s| - 1][|r|..] + [s[|s| - 1]];
      r
    else
      s
  }

  /** String.trim: drops trimmable chars at both ends. */
  function Trim(s: string): (r: string)
    ensures IsTrimmed(r)
  {
    TrimEnd(TrimStart(s))
  }

  /** Trim removes trimmable chars at the two ends and nothing else: the result is a factor of the input. */
  lemma TrimDropsOnlyEnds(s: string)
    ensures exists i :: IsTrimSplit(s, i, Trim(s))
  {
    var t := TrimStart(s);
    var r := TrimEnd(t);
    var i := |s| - |t|;
    assert s[i + |r|..] == t[|r|..];
    assert IsTrimSplit(s, i, r);
    assert Trim(s) == r;
  }

  /** TrimStart drops exactly a leading run of trimmable chars when a visible char (or nothing) follows it. */
  lemma {:induction false} TrimStartDropsPrefix(pre: string, t: string)
    requires AllTrimmable(pre)
    requires t == [] || !IsTrimmable(t[0])
    ensures TrimStart(pre + t) == t
    decreases |pre|
  {
    if pre != [] {
      assert (pre + t)[1..] == pre[1..] + t;
      TrimStartDropsPrefix(pre[1..], t);
    } else {
      assert pre + t == t;
    }
  }

  /** TrimEnd drops exactly a trailing run of trimmable chars when a visible char (or nothing) precedes it. */
  lemma {:induction false} TrimEndDropsSuffix(t: string, post: string)
    requires AllTrimmable(post)
    requires t == [] || !IsTrimmable(t[|t| - 1])
    ensures TrimEnd(t + post) == t
    decreases |post|
  {
    if post != [] {
      assert (t + post)[..|t + post| - 1] == t + post[..|post| - 1];
      TrimEndDropsSuffix(t, post[..|post| - 1]);
    } else {
      assert t + post == t;
    }
  }

  /** Trimming a trimmed core padded with trimmable chars on both sides gives the core back. */
  lemma TrimOfPadded(pre: string, core: string, post: string)
    requires AllTrimmable(pre) && AllTrimmable(post) && IsTrimmed(core)
    ensures Trim(pre + core + post) == core
  {
    assert pre + core + post == pre + (core + post);
    if core == [] {
      var s := pre + core + post;
      forall k | 0 <= k < |s|
        ensures IsTrimmable(s[k])
      {
        if k < |pre| {
          assert s[k] == pre[k];
        } else {
          assert s[k] == post[k - |pre|];
        }
      }
      TrimEmptyIff(s);
    } else {
      TrimStartDropsPrefix(pre, core + post);
      TrimEndDropsSuffix(core, post);
    }
  }

  /** Trim leaves an already trimmed string alone. */
  lemma TrimOfTrimmed(s: string)
    requires IsTrimmed(s)
    ensures Trim(s) == s
  {
  }

  /** Trim yields the empty string exactly when every char of the input is trimmable. */
  lemma TrimEmptyIff(s: string)
    ensures Trim(s) == [] <==> AllTrimmable(s)
  {
    var r := Trim(s);
    TrimDropsOnlyEnds(s);
    var i :| IsTrimSplit(s, i, r);
    if r == [] {
      assert s == s[..i] + s[i..];
      forall k | 0 <= k < |s|
        ensures IsTrimmable(s[k])
      {
        if k < i {
          assert s[k] == s[..i][k];
        } else {
          assert s[k] == s[i..][k - i];
        }
      }
    }
  }

  /** Every char of the trimmed string occurs in the input. */
  lemma TrimKeepsOnlyInputChars(s: string, c: char)
    ensures c in Trim(s) ==> c in s
  {
    var r := Trim(s);
    TrimDropsOnlyEnds(s);
    var i :| IsTrimSplit(s, i, r);
    if c in r {
      var k :| 0 <= k < |r| && r[k] == c;
      assert s[i + k] == c;
    }
  }

  /** String.toUpperCase restricted to ASCII: 'a'..'z' become 'A'..'Z', every other char is kept. */
  function UpperAscii(c: char): char {
    if 'a' <= c <= 'z' then (c as int - 'a' as int + 'A' as int) as char else c
  }

  function ToUpperAscii(s: string): (r: string)
    ensures |r| == |s|
    ensures forall i :: 0 <= i < |s| ==> r[i] == UpperAscii(s[i])
  {
    seq(|s|, i requires 0 <= i < |s| => UpperAscii(s[i]))
  }

  /** No char of s is an ASCII lower-case letter. */
  predicate NoLowerAscii(s: string) {
    forall i :: 0 <= i < |s| ==> !('a' <= s[i] <= 'z')
  }

  /** Upper-casing leaves no ASCII lower-case letter behind. */
  lemma UpperLeavesNoLower(s: string)
    ensures NoLowerAscii(ToUpperAscii(s))
  {
    var r := ToUpperAscii(s);
    forall i | 0 <= i < |r|
      ensures !('a' <= r[i] <= 'z')
    {
      assert r[i] == UpperAscii(s[i]);
    }
  }

  /** Upper-casing neither creates nor removes trimmable chars, so a trimmed string stays trimmed. */
  lemma UpperKeepsTrimmed(s: string)
    requires IsTrimmed(s)
    ensures IsTrimmed(ToUpperAscii(s))
  {
  }

  /** Upper-casing twice is upper-casing once. */
  lemma UpperIdempotent(s: string)
    ensures ToUpperAscii(ToUpperAscii(s)) == ToUpperAscii(s)
  {
  }

  /** Position of the first d in s. */
  function IndexOf(s: string, d: char): (i: nat)
    requires d in s
    ensures i < |s| && s[i] == d && d !in s[..i]
  {
    if s[0] == d then 0 else 1 + IndexOf(s[1..], d)
  }

  /** The text between consecutive occurrences of d, and before the first and after the last one. */
  function Pieces(s: string, d: char): (ps: seq<string>)
    ensures |ps| >= 1
    ensures forall k :: 0 <= k < |ps| ==> d !in ps[k]
    decreases |s|
  {
    if d !in s then [s]
    else
      var i := IndexOf(s, d);
      [s[..i]] + Pieces(s[i + 1..], d)
  }

  /** Glues pieces back together with d between neighbours. */
  function Join(ps: seq<string>, d: char): string
    requires |ps| >= 1
  {
    if |ps| == 1 then ps[0] else ps[0] + [d] + Join(ps[1..], d)
  }

  /** Splitting around d and joining with d gives back the input: no char is lost or moved. */
  lemma {:induction false} JoinPieces(s: string, d: char)
    ensures Join(Pieces(s, d), d) == s
    decreases |s|
  {
    if d in s {
      var i := IndexOf(s, d);
      var rest := s[i + 1..];
      var ps := Pieces(s, d);
      assert ps == [s[..i]] + Pieces(rest, d);
      assert ps[0] == s[..i] && ps[1..] == Pieces(rest, d);
      assert Join(ps, d) == s[..i] + [d] + Join(Pieces(rest, d), d);
      JoinPieces(rest, d);
      assert s == s[..i] + [d] + rest;
    } else {
      assert Pieces(s, d) == [s];
    }
  }

  /** The first piece is the text before the first d. */
  lemma FirstPiece(s: string, d: char)
    requires d in s
    ensures Pieces(s, d)[0] == s[..IndexOf(s, d)]
  {
  }

  /** s consists of d's only (the empty string included). */
  predicate OnlyChar(s: string, d: char) {
    forall i :: 0 <= i < |s| ==> s[i] == d
  }

  predicate AllEmpty(ps: seq<string>) {
    forall k :: 0 <= k < |ps| ==> ps[k] == []
  }

  /** Every piece is empty exactly when the input holds nothing but d's. */
  lemma {:induction false} PiecesAllEmptyIff(s: string, d: char)
    ensures AllEmpty(Pieces(s, d)) <==> OnlyChar(s, d)
    decreases |s|
  {
    var ps := Pieces(s, d);
    if d in s {
      var i := IndexOf(s, d);
      var rest := s[i + 1..];
      PiecesAllEmptyIff(rest, d);
      assert ps == [s[..i]] + Pieces(rest, d);
      if AllEmpty(ps) {
        assert ps[0] == s[..i];
        assert i == 0;
        forall k | 0 <= k < |s|
          ensures s[k] == d
        {
          if k > 0 {
            assert ps[1..] == Pieces(rest, d);
            assert s[k] == rest[k - 1];
          }
        }
      }
      if OnlyChar(s, d) {
        assert OnlyChar(rest, d) by {
          forall k | 0 <= k < |rest|
            ensures rest[k] == d
          {
            assert rest[k] == s[k + 1];
          }
        }
        forall k | 0 <= k < |ps|
          ensures ps[k] == []
        {
          if k > 0 {
            assert ps[k] == Pieces(rest, d)[k - 1];
          }
        }
      }
    } else {
      assert ps == [s];
      if |s| > 0 {
        assert s[0] in s;
        assert s[0] != d;
        assert ps[0] != [];
      }
    }
  }

  /** Drops empty strings from the end of the list, as String.split does when no limit is given. */
  function DropTrailingEmpty(ps: seq<string>): (r: seq<string>)
    ensures |r| <= |ps| && r == ps[..|r|]
    ensures r == [] || r[|r| - 1] != []
    ensures AllEmpty(ps[|r|..])
  {
    if |ps| > 0 && ps[|ps| - 1] == [] then
      var r := DropTrailingEmpty(ps[..|ps| - 1]);
      assert ps[|r|..] == ps[..|ps| - 1][|r|..] + [ps[|ps| - 1]];
      r
    else
      ps
  }

  /** String.split around a one-char literal pattern d (the regular expression "/" is one). */
  function JavaSplit(s: string, d: char): (ps: seq<string>)
    ensures forall k :: 0 <= k < |ps| ==> d !in ps[k]
    ensures d in s ==> ps == [] || ps[|ps| - 1] != []
    ensures |ps| <= |Pieces(s, d)| && ps == Pieces(s, d)[..|ps|]
    ensures d !in s ==> ps == [s]
    ensures d in s ==> AllEmpty(Pieces(s, d)[|ps|..])
  {
    if d !in s then [s] else DropTrailingEmpty(Pieces(s, d))
  }

  /**
   When s contains d, split returns no element at all if s is made of d's
   only, and otherwise its element 0 is the text before the first d (possibly
   empty, when s starts with d).
   */
  lemma SplitFirstElement(s: string, d: char)
    requires d in s
    ensures OnlyChar(s, d) ==> JavaSplit(s, d) == []
    ensures !OnlyChar(s, d) ==> |JavaSplit(s, d)| > 0 && JavaSplit(s, d)[0] == s[..IndexOf(s, d)]
  {
    var ps := Pieces(s, d);
    var r := DropTrailingEmpty(ps);
    PiecesAllEmptyIff(s, d);
    if !OnlyChar(s, d) {
      assert r[0] == ps[0];
      FirstPiece(s, d);
    }
  }
}

=== FILE: wrappers.dfy ===
/** Java's nullable references and thrown exceptions, as values. */
module Wrappers {

  /** A Java reference that may be null: None stands for null. */
  datatype Option<+T> = None | Some(value: T)

  /** A call that either returns a value or throws. */
  datatype Result<+R, +E> = Success(value: R) | Failure(error: E)
}
